=== FILE: README.md ===
# Jharkhand tourism assistant — a Dafny model of its sequential core

This project models, in Dafny, the parts of the Jharkhand eco- and
cultural-tourism prototypes that have real sequential logic:

- **Keyword context retrieval** (`ragService.ts`). The query is
  lower-cased and split on whitespace. Every knowledge-base document that
  has a keyword equal to a query word is selected. The selection is then
  rendered as the header `Relevant Information: ` followed by one line
  `\n- <title>: <content>` per document. The result is null when nothing
  matched. Module `Rag`, built on the string primitives of module `Text`.
- **Prompt composition** (`geminiService.ts`). `generateResponse` picks the
  language name, with English as the fallback. It builds the question prompt
  and puts `CONTEXT: "<ctx>" \n\n ` in front of it when retrieval found
  something. It sends one message on the chat session and turns any failure
  into a fixed apology. Module `Gemini`. The remote model is an oracle: its
  answer to the call (`Answered(text)` or `Failed`) is a parameter.
- **The chat screen** (`App.tsx`). The state is the view, the append-only
  transcript, the loading flag, the chat session and the language. Feature
  selection, going back home and sending are pure updates of that state.
  Module `ChatApp` also proves an invariant over every run the screen allows.
  The loading flag is off and the transcript alternates after the greeting.
  The session has sent exactly one prompt per user message.
- **The monuments map selection** (`MapComponent.tsx` of the monuments
  guide). It covers the category filter, the marker click with its route
  list of at most two points, and the three-branch swap. Module
  `MonumentsMap` takes the places table as a parameter.

Modules `Wrappers` (an `Option` for the source's `null`) and `Seqs`
(subsequence, no-duplicates, suffix) are shared helpers.

`generateResponse` catches every error, so the awaited promise in the send
handler always fulfils. The only other call inside the handler's `try` that
can throw is text-to-speech (`speak`, `App.tsx` lines 70-72); appending the
assistant message with the state setter does not throw. With text-to-speech left
out, the handler's `catch` branch cannot be reached. The model keeps that
branch in `ChatApp.FinishSend`. `ChatApp.SendNeverRejects`
shows that the notice never reaches the transcript through a send, unless
the model itself answers with that exact text.

## Model

| member | source | states |
|---|---|---|
| Text.TrimEmptyIffAllWhitespace | Jhar-Setu-V2/jharkhand-eco-cultural-guide/App.tsx:56 | `text.trim()` is empty exactly when every character of the text is JavaScript whitespace, so the blank-input guard means "all whitespace" |
| Text.Split | Jhar-Setu-V2/jharkhand-eco-cultural-guide/services/ragService.ts:51 | `split(/\s+/)` always yields at least one piece; no piece contains whitespace; a leading whitespace run (or an empty input) yields an empty first piece |
| Text.Trim | Jhar-Setu-V2/jharkhand-eco-cultural-guide/App.tsx:56 | `trim` returns a slice of the text that neither starts nor ends with whitespace, and only whitespace is cut away on either side |
| Text.Lower | Jhar-Setu-V2/jharkhand-eco-cultural-guide/services/ragService.ts:51 | the lower-cased query has the same length, and each character is that character lower-cased |
| Text.SplitJoin | Jhar-Setu-V2/jharkhand-eco-cultural-guide/services/ragService.ts:51 | round trip: whitespace-free pieces joined by non-empty whitespace runs of any length split back into exactly those pieces; an empty first or last piece stands for a leading or trailing run |
| Text.SplitReassembles | Jhar-Setu-V2/jharkhand-eco-cultural-guide/services/ragService.ts:51 | the other direction: the pieces `split(/\s+/)` returns, with the whitespace runs between them, are such a decomposition and put back together give the input, so the pieces are fixed for every input |
| Text.LeadingRunSplit | Jhar-Setu-V2/jharkhand-eco-cultural-guide/services/ragService.ts:51 | a query starting with whitespace, `"  waterfall"`, splits into `""` and `"waterfall"` |
| Text.LowerIdempotent | Jhar-Setu-V2/jharkhand-eco-cultural-guide/services/ragService.ts:51 | lower-casing a lower-cased query changes nothing |
| Rag.Matched | Jhar-Setu-V2/jharkhand-eco-cultural-guide/services/ragService.ts:54-61 | a document is selected iff it is in the database and one of its keywords equals one of the query words; at most as many documents as the database holds |
| Rag.RetrieveContextIn | Jhar-Setu-V2/jharkhand-eco-cultural-guide/services/ragService.ts:50-74 | the result is null iff no document of the database has a keyword among the query words; a non-null result starts with the header and is longer than it |
| Rag.RetrieveContext | Jhar-Setu-V2/jharkhand-eco-cultural-guide/services/ragService.ts:50-74 | over the built-in database: null iff no built-in document has a keyword among the query words; otherwise the header followed by more text |
| Rag.KeywordScan | Jhar-Setu-V2/jharkhand-eco-cultural-guide/services/ragService.ts:55-60 | the keyword loop finds a hit iff one of the document's keywords is a query word |
| Rag.RetrieveContextLoop | Jhar-Setu-V2/jharkhand-eco-cultural-guide/services/ragService.ts:50-74 | the scan as written (break on the first keyword hit, set of matches, string concatenation loop) computes exactly the functional retrieval |
| Rag.ParseEntryLines | Jhar-Setu-V2/jharkhand-eco-cultural-guide/services/ragService.ts:68-71 | round trip: the entry lines of single-line documents read back as `title: content` for each document, in order |
| Rag.ContextEntries | Jhar-Setu-V2/jharkhand-eco-cultural-guide/services/ragService.ts:63-71 | a non-null context is the header followed by exactly one entry per matched document, in database order; there are between one and database-size entries |
| Rag.MatchedIsSubsequence | Jhar-Setu-V2/jharkhand-eco-cultural-guide/services/ragService.ts:54-61 | the selected documents keep the database order |
| Rag.MatchedNoDuplicates | Jhar-Setu-V2/jharkhand-eco-cultural-guide/services/ragService.ts:52-61 | no document is listed twice when the database has no repeated entry |
| Rag.RagDatabaseDistinct | Jhar-Setu-V2/jharkhand-eco-cultural-guide/services/ragService.ts:4-47 | the six built-in documents are pairwise different (their ids differ) |
| Rag.MatchedMonotone | Jhar-Setu-V2/jharkhand-eco-cultural-guide/services/ragService.ts:54-61 | if every word of one word list is in another, the documents the first selects are a subsequence of those the second selects |
| Rag.RetrieveMonotone | Jhar-Setu-V2/jharkhand-eco-cultural-guide/services/ragService.ts:50-65 | if every word of query q1 is a word of q2, a non-null result for q1 implies one for q2, and q1's selection is a subsequence of q2's |
| Rag.CaseInsensitive | Jhar-Setu-V2/jharkhand-eco-cultural-guide/services/ragService.ts:51 | retrieval for a query and for its lower-cased form is the same |
| Rag.UpperCaseKeywordNeverMatches | Jhar-Setu-V2/jharkhand-eco-cultural-guide/services/ragService.ts:51-56 | a keyword with an upper-case ASCII letter is never a query word |
| Rag.WhitespaceKeywordNeverMatches | Jhar-Setu-V2/jharkhand-eco-cultural-guide/services/ragService.ts:51-56 | a keyword containing whitespace is never a query word |
| Rag.HillStationIsDead | Jhar-Setu-V2/jharkhand-eco-cultural-guide/services/ragService.ts:17-56 | Netarhat's keyword "hill station" can never match any query |
| Rag.PunctuationDefeatsMatch | Jhar-Setu-V2/jharkhand-eco-cultural-guide/services/ragService.ts:51-65 | punctuation is not stripped: the query "waterfall?" retrieves null from the built-in database |
| Rag.CapitalisedQueryMatches | Jhar-Setu-V2/jharkhand-eco-cultural-guide/services/ragService.ts:51-61 | the query "Waterfall" selects exactly the Dassam Falls document |
| Gemini.LanguageName | Jhar-Setu-V2/jharkhand-eco-cultural-guide/services/geminiService.ts:40 | the language name is never empty; it is the table entry for a listed code and "English" otherwise |
| Gemini.NoFallbackForListedCodes | Jhar-Setu-V2/jharkhand-eco-cultural-guide/types.ts:20-27 | every listed code other than en-US gets its own name, never the English fallback |
| Gemini.ComposePrompt | Jhar-Setu-V2/jharkhand-eco-cultural-guide/services/geminiService.ts:42-46 | the question prompt is always a suffix; the prompt ends with the user message verbatim in quotes; it starts with the context marker iff the context is truthy |
| Gemini.AugmentedPrompt | Jhar-Setu-V2/jharkhand-eco-cultural-guide/services/geminiService.ts:39-46 | context is retrieved from the raw message; the context branch is taken iff retrieval is non-null; the question prompt and the verbatim message end the prompt |
| Gemini.PromptBranches | Jhar-Setu-V2/jharkhand-eco-cultural-guide/services/geminiService.ts:42-46 | without context the prompt is exactly the question prompt; with context it is the marker, the context and the question prompt |
| Gemini.GenerateResponse | Jhar-Setu-V2/jharkhand-eco-cultural-guide/services/geminiService.ts:37-55 | exactly one message, the augmented prompt, is sent on the session; the result is the reply text on success and the fixed apology on any failure |
| ChatApp.InitialMessages | Jhar-Setu-V2/jharkhand-eco-cultural-guide/App.tsx:12-25 | each feature opens with a single assistant message |
| ChatApp.HandleFeatureSelect | Jhar-Setu-V2/jharkhand-eco-cultural-guide/App.tsx:37-44 | the transcript becomes the feature's greeting, the view becomes chat, the session is cleared; loading flag and language are kept |
| ChatApp.FeatureSelectForgets | Jhar-Setu-V2/jharkhand-eco-cultural-guide/App.tsx:37-40 | the state after a feature selection does not depend on the previous view, transcript or session |
| ChatApp.HandleBackToHome | Jhar-Setu-V2/jharkhand-eco-cultural-guide/App.tsx:46-53 | going back shows home, empties the transcript and clears the session |
| ChatApp.BeginSend | Jhar-Setu-V2/jharkhand-eco-cultural-guide/App.tsx:58-64 | a session is created only when none exists (an existing one is reused); the raw text is appended as a user message; loading starts |
| ChatApp.FinishSend | Jhar-Setu-V2/jharkhand-eco-cultural-guide/App.tsx:66-79 | exactly one assistant message is appended, holding the response on success and the fixed notice on rejection; earlier messages are kept; loading ends on both paths |
| ChatApp.SendNonBlank | Jhar-Setu-V2/jharkhand-eco-cultural-guide/App.tsx:58-79 | a non-blank send appends the user message and then the response; loading ends; the session has sent the old prompts plus the one augmented prompt |
| ChatApp.HandleSendMessage | Jhar-Setu-V2/jharkhand-eco-cultural-guide/App.tsx:55-80 | blank (all-whitespace) text leaves the whole state unchanged; other text behaves as a non-blank send |
| ChatApp.SendNeverRejects | Jhar-Setu-V2/jharkhand-eco-cultural-guide/App.tsx:66-76 | the catch block's notice never ends up in the transcript after a send |
| ChatApp.NonBlankKeepsHistory | Jhar-Setu-V2/jharkhand-eco-cultural-guide/App.tsx:62-76 | the transcript before a non-blank send is a prefix of the transcript after it |
| ChatApp.SendKeepsHistory | Jhar-Setu-V2/jharkhand-eco-cultural-guide/App.tsx:63-76 | a send never alters or removes earlier messages |
| ChatApp.SendsOnlyAppend | Jhar-Setu-V2/jharkhand-eco-cultural-guide/App.tsx:55-80 | across any series of sends and language changes the old transcript stays a prefix |
| ChatApp.StepConsistent | Jhar-Setu-V2/jharkhand-eco-cultural-guide/App.tsx:37-80 | every event the screen offers keeps the following true: loading is off between events; home has no transcript and no session; in chat the transcript alternates after the greeting; the session has sent one prompt per user message |
| ChatApp.RunConsistent | Jhar-Setu-V2/jharkhand-eco-cultural-guide/App.tsx:37-80 | the same invariant holds after any run of enabled events from a consistent state |
| MonumentsMap.FilteredPlaces | jharkhand-monuments-guide/src/components/MapComponent.tsx:166-168 | a place is shown iff it is in the table and the filter list is empty or lists its type |
| MonumentsMap.NoFilterShowsAll | jharkhand-monuments-guide/src/components/MapComponent.tsx:166-168 | an empty filter list shows the whole table, in order |
| MonumentsMap.FilteredCounts | jharkhand-monuments-guide/src/components/MapComponent.tsx:166-168 | each place appears in the shown list exactly as many times as in the table when the filter passes it, and never otherwise |
| MonumentsMap.FilteredIsSubsequence | jharkhand-monuments-guide/src/components/MapComponent.tsx:166-168 | the shown places keep the table order |
| MonumentsMap.FilterMonotone | jharkhand-monuments-guide/src/components/MapComponent.tsx:166-168 | a non-empty filter list contained in another shows a subsequence of what the other shows |
| MonumentsMap.ButtonFilters | jharkhand-monuments-guide/src/components/MapComponent.tsx:190-239 | each category button installs at most one type, and only "Show All" installs the empty list |
| MonumentsMap.HandleFilterChange | jharkhand-monuments-guide/src/components/MapComponent.tsx:82-84 | only the filter list changes |
| MonumentsMap.ButtonShowsOneKind | jharkhand-monuments-guide/src/components/MapComponent.tsx:166-239 | after a type button, a place is shown iff it is in the table and has that button's type |
| MonumentsMap.HandleMarkerClick | jharkhand-monuments-guide/src/components/MapComponent.tsx:86-95 | the clicked place becomes selected; the route list grows by that place iff it had fewer than two points; existing points are unchanged; two points are never exceeded |
| MonumentsMap.HandleSwapRoutePoints | jharkhand-monuments-guide/src/components/MapComponent.tsx:138-155 | swap never changes the filter or the selected place, and only permutes the route points |
| MonumentsMap.SwapEndpointsInvolution | jharkhand-monuments-guide/src/components/MapComponent.tsx:139-144 | with a start and a custom end set, swap exchanges them and changes nothing else (route points, selection and filter stay); swapping twice restores the state |
| MonumentsMap.SwapSelectedNotExchange | jharkhand-monuments-guide/src/components/MapComponent.tsx:145-149 | with a start and a selected place but no custom end, swap only moves the start onto the place; a second swap changes nothing more, and the old start is lost |
| MonumentsMap.SwapRoutePointsOtherwise | jharkhand-monuments-guide/src/components/MapComponent.tsx:150-154 | otherwise two route points are reversed and nothing else changes (start and custom end stay); twice is the identity; in any other state swap changes nothing |
| MonumentsMap.MapStepConsistent | jharkhand-monuments-guide/src/components/MapComponent.tsx:82-155 | every enabled map event keeps the route list at no more than two points and the filter at no more than one type; route points and the selected place all come from the places table |
| MonumentsMap.MapRunConsistent | jharkhand-monuments-guide/src/components/MapComponent.tsx:82-155 | the same holds after any run of enabled map events from a consistent state |
| MonumentsMap.InitialMapRunConsistent | jharkhand-monuments-guide/src/components/MapComponent.tsx:66-155 | from the state the map mounts with, every run of enabled map events stays consistent |

## Left out

- The Gemini client, the system instruction, session creation on the SDK and the API-key check at module load. These are network and environment concerns. A session is modelled only by the prompts sent on it, and the model's answer is a parameter.
- Gemini.GenerateResponse: `result.text` is taken to be a string; the SDK's possibly undefined text is not modelled.
- Text.Lower: `toLowerCase` is modelled on the ASCII letters only. Full Unicode case mapping is not modelled.
- Rag.ContextEntries: stated for databases whose titles and contents hold no newline. That the six built-in documents satisfy this is not proved, because reasoning about the characters of their long literal texts is too costly for the verifier.
- Text-to-speech, speech recognition and the speaking flag. These are browser I/O.
- Concurrency: a send is one atomic step. The source applies its two transcript updates around an `await` and has no guard against a late response arriving after a feature change or going back home. That interleaving is not modelled.
- The map's directions, distance matrix, geolocation, Street View, autocomplete and rendering. These are mapping-SDK calls. Their effect on the modelled state is a new start or custom end location, which is taken as an input event.
- The places table of the monuments guide. `../data/places` is not part of this model, so the table is a parameter.
- The distance sort of the other map page, which parses SDK display text as floating point.
- The login, signup and about pages, the routers and the pure rendering components. They have no logic to model.

=== FILE: app.dfy ===
/** The chat screen of the eco-cultural guide as a state machine: a view
    (feature selection or chat), an append-only transcript, a loading flag,
    the chat session (if one exists) and the selected language. Each
    handler is a pure update of that state; a send is atomic, and the
    remote model's answer to it is a parameter. */
module ChatApp {
  import opened Wrappers
  import opened Text
  import opened Gemini
  import Seqs

  datatype Author = User | Assistant

  datatype Message = Message(author: Author, content: string)

  datatype Feature = Itinerary | Art

  datatype View = Home | ChatView

  datatype AppState = AppState(
    view: View,
    messages: seq<Message>,
    isLoading: bool,
    session: Option<Chat>,
    language: string)

  const InitialState: AppState := AppState(Home, [], false, None, "en-US")

  /** The greeting each feature opens its chat with. */
  function Greeting(feature: Feature): string {
    match feature
    case Itinerary =>
      "I can help plan your perfect trip to Jharkhand! To get started, please tell me your travel dates, interests (like waterfalls or temples), and preferred pace."
    case Art =>
      "Let's discover the beautiful arts and crafts of Jharkhand! Are you looking for pottery, wood carvings, or perhaps a unique souvenir for your home or a friend?"
  }

  /** `initialMessages`: a single assistant greeting per feature. */
  function InitialMessages(feature: Feature): (r: seq<Message>)
    ensures |r| == 1 && r[0].author == Assistant
  {
    [Message(Assistant, Greeting(feature))]
  }

  /** The notice the send handler's catch block appends. */
  const ErrorNotice: string := "I'm sorry, I encountered an error. Please try again."

  /** `handleFeatureSelect`: the transcript becomes the feature's greeting,
      the chat view is shown and the session is dropped. */
  function HandleFeatureSelect(s: AppState, feature: Feature): (t: AppState)
    ensures t.view == ChatView && t.session.None?
    ensures t.messages == InitialMessages(feature)
    ensures t.isLoading == s.isLoading && t.language == s.language
  {
    s.(messages := InitialMessages(feature), view := ChatView, session := None)
  }

  /** `handleBackToHome`: the feature selection is shown, the transcript is
      emptied and the session is dropped. */
  function HandleBackToHome(s: AppState): (t: AppState)
    ensures t.view == Home && t.messages == [] && t.session.None?
    ensures t.isLoading == s.isLoading && t.language == s.language
  {
    s.(view := Home, messages := [], session := None)
  }

  /** How the awaited `generateResponse` promise settles. */
  datatype Settled = Fulfilled(text: string) | Rejected

  /** The synchronous first half of a send: a session is created if none
      exists, the raw text is appended as a user message, loading starts. */
  function BeginSend(s: AppState, text: string): (t: AppState)
    ensures t.messages == s.messages + [Message(User, text)]
    ensures t.isLoading
    ensures s.session.Some? ==> t.session == s.session
    ensures s.session.None? ==> t.session == Some(Chat([]))
    ensures t.view == s.view && t.language == s.language
  {
    var session := if s.session.None? then Some(Chat([])) else s.session;
    s.(session := session, messages := s.messages + [Message(User, text)], isLoading := true)
  }

  /** The second half of a send: the try/catch/finally around the awaited
      response. One assistant message is appended, loading always ends. */
  function FinishSend(s: AppState, outcome: Settled): (t: AppState)
    ensures |t.messages| == |s.messages| + 1 && t.messages[..|s.messages|] == s.messages
    ensures t.messages[|s.messages|].author == Assistant
    ensures outcome.Fulfilled? ==> t.messages[|s.messages|].content == outcome.text
    ensures outcome.Rejected? ==> t.messages[|s.messages|].content == ErrorNotice
    ensures !t.isLoading
    ensures t.view == s.view && t.session == s.session && t.language == s.language
  {
    var content := match outcome
      case Fulfilled(reply) => reply
      case Rejected => ErrorNotice;
    s.(messages := s.messages + [Message(Assistant, content)], isLoading := false)
  }

  /** The prompts the current session has sent; none without a session. */
  function PriorPrompts(s: AppState): seq<string> {
    s.session.GetOr(Chat([])).sent
  }

  /** A send of non-blank text: lines 58-79 of the handler, with the
      awaited `generateResponse` inlined. */
  function SendNonBlank(s: AppState, text: string, reply: Reply): (t: AppState)
    ensures t.messages == s.messages + [Message(User, text), Message(Assistant, ReplyText(reply))]
    ensures !t.isLoading && t.view == s.view && t.language == s.language
    ensures t.session == Some(Chat(PriorPrompts(s) + [AugmentedPrompt(text, s.language)]))
  {
    var begun := BeginSend(s, text);
    var response := GenerateResponse(begun.session.value, text, begun.language, reply);
    FinishSend(begun.(session := Some(response.chat)), Fulfilled(response.text))
  }

  /** `handleSendMessage`: blank text does nothing; otherwise the user
      message and then exactly one assistant message are appended, the
      session (created only if none exists) carries one more prompt, and
      loading is off again. Since `generateResponse` never rejects, the
      response is always the fulfilled value. */
  function HandleSendMessage(s: AppState, text: string, reply: Reply): (t: AppState)
    ensures AllWhitespace(text) ==> t == s
    ensures !AllWhitespace(text) ==> t == SendNonBlank(s, text, reply)
  {
    TrimEmptyIffAllWhitespace(text);
    if Trim(text) == [] then s else SendNonBlank(s, text, reply)
  }

  // ---------------------------------------------------------------- runs

  /** What the rendered screen lets the user do. */
  datatype Event =
    | SelectFeature(feature: Feature)
    | BackToHome
    | SendMessage(text: string, reply: Reply)
    | ChangeLanguage(code: string)

  /** The feature cards are shown only at home, the back button and the
      chat input only in the chat view; the language menu lists the
      supported codes. */
  predicate Enabled(s: AppState, e: Event) {
    match e
    case SelectFeature(_) => s.view == Home
    case BackToHome => s.view == ChatView
    case SendMessage(_, _) => s.view == ChatView
    case ChangeLanguage(code) => code in SupportedLanguages
  }

  function Step(s: AppState, e: Event): AppState {
    match e
    case SelectFeature(f) => HandleFeatureSelect(s, f)
    case BackToHome => HandleBackToHome(s)
    case SendMessage(text, reply) => HandleSendMessage(s, text, reply)
    case ChangeLanguage(code) => s.(language := code)
  }

  /** The transcript opens with the assistant's greeting and then
      alternates user and assistant messages. */
  predicate Alternates(messages: seq<Message>) {
    && |messages| % 2 == 1
    && forall i :: 0 <= i < |messages| ==> messages[i].author == (if i % 2 == 1 then User else Assistant)
  }

  /** What holds between events in every reachable state. */
  predicate Consistent(s: AppState) {
    && !s.isLoading
    && s.language in SupportedLanguages
    && (s.view == Home ==> s.messages == [] && s.session.None?)
    && (s.view == ChatView ==> Alternates(s.messages))
    && |PriorPrompts(s)| == |s.messages| / 2
  }

  lemma InitialConsistent()
    ensures Consistent(InitialState)
  {
  }

  lemma GreetingAlternates(m: seq<Message>)
    requires |m| == 1 && m[0].author == Assistant
    ensures Alternates(m)
  {
  }

  /** A user message followed by an assistant message keeps the alternation. */
  lemma ExchangeAlternates(m: seq<Message>, question: Message, answer: Message)
    requires Alternates(m) && question.author == User && answer.author == Assistant
    ensures Alternates(m + [question, answer])
  {
    var t := m + [question, answer];
    forall i | 0 <= i < |t| ensures t[i].author == (if i % 2 == 1 then User else Assistant) {
      if i < |m| {
        assert t[i] == m[i];
      }
    }
  }

  lemma SendConsistent(s: AppState, text: string, reply: Reply)
    requires Consistent(s) && s.view == ChatView
    ensures Consistent(HandleSendMessage(s, text, reply))
  {
    if !AllWhitespace(text) {
      var t := SendNonBlank(s, text, reply);
      ExchangeAlternates(s.messages, Message(User, text), Message(Assistant, ReplyText(reply)));
      assert |PriorPrompts(t)| == |PriorPrompts(s)| + 1;
      assert |t.messages| == |s.messages| + 2;
    }
  }

  /** Every enabled event keeps the state consistent: in particular, the
      session has sent exactly one prompt per user message in the
      transcript, and the loading flag is off between events. */
  lemma StepConsistent(s: AppState, e: Event)
    requires Consistent(s) && Enabled(s, e)
    ensures Consistent(Step(s, e))
  {
    match e
    case SelectFeature(f) =>
      GreetingAlternates(InitialMessages(f));
    case BackToHome =>
    case SendMessage(text, reply) =>
      SendConsistent(s, text, reply);
    case ChangeLanguage(code) =>
  }

  function Run(s: AppState, events: seq<Event>): AppState
    decreases |events|
  {
    if events == [] then s else Run(Step(s, events[0]), events[1..])
  }

  predicate AllEnabled(s: AppState, events: seq<Event>)
    decreases |events|
  {
    events == [] || (Enabled(s, events[0]) && AllEnabled(Step(s, events[0]), events[1..]))
  }

  /** Any run the screen allows from the initial state ends consistent. */
  lemma {:induction false} RunConsistent(s: AppState, events: seq<Event>)
    requires Consistent(s) && AllEnabled(s, events)
    ensures Consistent(Run(s, events))
    decreases |events|
  {
    if events != [] {
      StepConsistent(s, events[0]);
      RunConsistent(Step(s, events[0]), events[1..]);
    }
  }

  /** A non-blank send keeps every earlier message in place. */
  lemma NonBlankKeepsHistory(s: AppState, text: string, reply: Reply)
    ensures s.messages <= SendNonBlank(s, text, reply).messages
  {
    Seqs.PrefixOfAppend(s.messages, [Message(User, text), Message(Assistant, ReplyText(reply))]);
  }

  /** One send keeps every earlier message in place. */
  lemma SendKeepsHistory(s: AppState, text: string, reply: Reply)
    ensures s.messages <= HandleSendMessage(s, text, reply).messages
  {
    if !AllWhitespace(text) {
      NonBlankKeepsHistory(s, text, reply);
    }
  }

  lemma StepKeepsHistory(s: AppState, e: Event)
    requires e.SendMessage? || e.ChangeLanguage?
    ensures s.messages <= Step(s, e).messages
  {
    if e.SendMessage? {
      SendKeepsHistory(s, e.text, e.reply);
    }
  }

  /** Sends never change or drop earlier messages: across any series of
      sends (and language changes) the old transcript stays a prefix. */
  lemma {:induction false} SendsOnlyAppend(s: AppState, events: seq<Event>)
    requires forall i :: 0 <= i < |events| ==> events[i].SendMessage? || events[i].ChangeLanguage?
    ensures s.messages <= Run(s, events).messages
    decreases |events|
  {
    if events != [] {
      var s1 := Step(s, events[0]);
      StepKeepsHistory(s, events[0]);
      SendsOnlyAppend(s1, events[1..]);
      Seqs.PrefixTransitive(s.messages, s1.messages, Run(s1, events[1..]).messages);
    }
  }

  /** Selecting a feature forgets everything about the previous chat. */
  lemma FeatureSelectForgets(s1: AppState, s2: AppState, feature: Feature)
    requires s1.isLoading == s2.isLoading && s1.language == s2.language
    ensures HandleFeatureSelect(s1, feature) == HandleFeatureSelect(s2, feature)
  {
  }

  /** The catch block's notice never reaches the transcript through a send,
      because `generateResponse` turns every failure into its own apology. */
  lemma SendNeverRejects(s: AppState, text: string, reply: Reply)
    requires !AllWhitespace(text)
    requires reply.Answered? ==> reply.text != ErrorNotice
    ensures var t := HandleSendMessage(s, text, reply);
            t.messages[|t.messages| - 1].content != ErrorNotice
  {
  }
}

=== FILE: gemini.dfy ===
/** The pure part of `generateResponse`: choosing the language name,
    composing the augmented prompt from the retrieved context, sending it
    on the chat session, and turning any failure into a fixed apology.
    The remote model is an oracle: the `Reply` it gives is a parameter. */
module Gemini {
  import opened Wrappers
  import opened Seqs
  import opened Rag

  /** `supportedLanguages`: language code to the language name the prompt names. */
  const SupportedLanguages: map<string, string> := map[
    "en-US" := "English",
    "hi-IN" := "हिन्दी",
    "te-IN" := "తెలుగు",
    "ta-IN" := "தமிழ்",
    "bn-IN" := "বাংলা",
    "mr-IN" := "मराठी"
  ]

  const DefaultLanguageName: string := "English"

  /** `supportedLanguages[languageCode] || 'English'`: the table entry,
      unless it is missing or empty (falsy), in which case English. */
  function LanguageName(code: string): (name: string)
    ensures name != ""
    ensures code in SupportedLanguages ==> name == SupportedLanguages[code]
    ensures code !in SupportedLanguages ==> name == DefaultLanguageName
  {
    if code in SupportedLanguages && SupportedLanguages[code] != "" then SupportedLanguages[code]
    else DefaultLanguageName
  }

  /** The prompt without retrieved context. */
  function QuestionPrompt(languageName: string, userMessage: string): string {
    "(The user wants you to respond ONLY in " + languageName + "). USER QUESTION: \"" + userMessage + "\""
  }

  /** The prompt with retrieved context in front of the question prompt. */
  function ContextPrompt(context: string, languageName: string, userMessage: string): string {
    "CONTEXT: \"" + context + "\" \n\n " + QuestionPrompt(languageName, userMessage)
  }

  const ContextMarker: string := "CONTEXT: \""

  /** The prompt for a given retrieval result: the context branch is
      taken when the context is truthy (non-null and non-empty). */
  function ComposePrompt(context: Option<string>, languageName: string, userMessage: string): (prompt: string)
    ensures IsSuffix(QuestionPrompt(languageName, userMessage), prompt)
    ensures IsSuffix("USER QUESTION: \"" + userMessage + "\"", prompt)
    ensures ContextMarker <= prompt <==> context.Some? && context.value != ""
  {
    var question := QuestionPrompt(languageName, userMessage);
    var tail := "USER QUESTION: \"" + userMessage + "\"";
    var lead := "(The user wants you to respond ONLY in " + languageName + "). ";
    assert question == lead + tail;
    SuffixOfAppend(lead, tail);
    assert question[0] == '(';
    if context.Some? && context.value != "" then
      var head := "CONTEXT: \"" + context.value + "\" \n\n ";
      var prompt := ContextPrompt(context.value, languageName, userMessage);
      assert prompt == head + question;
      SuffixOfAppend(head, question);
      SuffixTransitive(tail, question, prompt);
      assert prompt[..|ContextMarker|] == ContextMarker;
      prompt
    else
      assert question[0] != ContextMarker[0];
      question
  }

  /** The augmented prompt of `generateResponse`: context is retrieved from
      the raw message, and the context branch is taken exactly when the
      retrieval is non-null (a non-null context is never empty). */
  function AugmentedPrompt(userMessage: string, code: string): (prompt: string)
    ensures IsSuffix(QuestionPrompt(LanguageName(code), userMessage), prompt)
    ensures IsSuffix("USER QUESTION: \"" + userMessage + "\"", prompt)
    ensures ContextMarker <= prompt <==> RetrieveContext(userMessage).Some?
  {
    ComposePrompt(RetrieveContext(userMessage), LanguageName(code), userMessage)
  }

  /** A chat session, seen through what was sent on it. */
  datatype Chat = Chat(sent: seq<string>)

  /** What the remote `sendMessage` call settles to. */
  datatype Reply = Answered(text: string) | Failed

  const Apology: string :=
    "I'm sorry, I'm having trouble connecting to my knowledge base. Please try again later."

  /** The text `generateResponse` resolves to: the model's answer, or the
      apology when the call failed. */
  function ReplyText(reply: Reply): string {
    match reply
    case Answered(t) => t
    case Failed => Apology
  }

  datatype Response = Response(chat: Chat, text: string)

  /** `generateResponse`: one message is sent on the session, and the
      function always resolves, with the reply or the apology. */
  function GenerateResponse(chat: Chat, userMessage: string, code: string, reply: Reply): (r: Response)
    ensures r.chat.sent == chat.sent + [AugmentedPrompt(userMessage, code)]
    ensures reply.Answered? ==> r.text == reply.text
    ensures reply.Failed? ==> r.text == Apology
  {
    var prompt := AugmentedPrompt(userMessage, code);
    Response(Chat(chat.sent + [prompt]), ReplyText(reply))
  }

  /** Every code the language menu offers has a name of its own, so the
      English fallback is only reached by a code outside the table. */
  lemma NoFallbackForListedCodes(code: string)
    requires code in SupportedLanguages && code != "en-US"
    ensures LanguageName(code) != DefaultLanguageName
  {
  }

  /** The context branch is taken exactly when retrieval found something,
      and then the prompt is the marker, the context, and the question prompt. */
  lemma PromptBranches(userMessage: string, code: string)
    ensures var ctx := RetrieveContext(userMessage);
            var q := QuestionPrompt(LanguageName(code), userMessage);
            && (ctx.None? ==> AugmentedPrompt(userMessage, code) == q)
            && (ctx.Some? ==> AugmentedPrompt(userMessage, code) == ContextPrompt(ctx.value, LanguageName(code), userMessage))
  {
  }
}

=== FILE: map.dfy ===
/** The selection state of the monuments map: the category filter over the
    places table, the clicked place, the list of route points (at most two)
    and the three-way swap of route end points. The places table is a
    parameter; map rendering, directions and geolocation are not modelled,
    and a location is only ever copied or compared. */
module MonumentsMap {
  import opened Wrappers
  import opened Seqs

  datatype Location = Location(lat: real, lng: real)

  datatype LocationType = Monument | ArtisanMarket | Restaurant | Hotel | Lake | Viewpoint | Mall

  datatype Place = Place(
    id: string,
    name: string,
    kind: LocationType,
    location: Location,
    description: string)

  datatype MapState = MapState(
    userLocation: Option<Location>,
    selectedPlace: Option<Place>,
    selectedFilters: seq<LocationType>,
    routePoints: seq<Place>,
    customEndLocation: Option<Location>)

  const InitialMapState: MapState := MapState(None, None, [], [], None)

  // -------------------------------------------------------------- filter

  /** The filter test: no filter shows everything, otherwise the kind must be listed. */
  predicate Shown(filters: seq<LocationType>, place: Place) {
    |filters| == 0 || place.kind in filters
  }

  /** `filteredPlaces`: the places the filter shows, in table order. */
  function FilteredPlaces(places: seq<Place>, filters: seq<LocationType>): (r: seq<Place>)
    ensures |r| <= |places|
    ensures forall p :: p in r <==> p in places && Shown(filters, p)
    decreases |places|
  {
    if places == [] then []
    else
      var rest := FilteredPlaces(places[1..], filters);
      assert forall p :: p in places <==> p == places[0] || p in places[1..];
      if Shown(filters, places[0]) then [places[0]] + rest else rest
  }

  /** With no filter selected every place is shown, in table order. */
  lemma {:induction false} NoFilterShowsAll(places: seq<Place>)
    ensures FilteredPlaces(places, []) == places
    decreases |places|
  {
    if places != [] {
      NoFilterShowsAll(places[1..]);
      assert [places[0]] + places[1..] == places;
    }
  }

  /** Every place is shown exactly as often as the table lists it when the
      filter passes it, and not at all otherwise: repeated entries are kept. */
  lemma {:induction false} FilteredCounts(places: seq<Place>, filters: seq<LocationType>, p: Place)
    ensures multiset(FilteredPlaces(places, filters))[p]
         == if Shown(filters, p) then multiset(places)[p] else 0
    decreases |places|
  {
    if places != [] {
      FilteredCounts(places[1..], filters, p);
      assert places == [places[0]] + places[1..];
      assert multiset(places) == multiset([places[0]]) + multiset(places[1..]);
    }
  }

  /** The filtered list keeps the table order and drops places only. */
  lemma {:induction false} FilteredIsSubsequence(places: seq<Place>, filters: seq<LocationType>)
    ensures IsSubsequence(FilteredPlaces(places, filters), places)
    decreases |places|
  {
    if places != [] {
      FilteredIsSubsequence(places[1..], filters);
      var rest := FilteredPlaces(places[1..], filters);
      if Shown(filters, places[0]) {
        assert FilteredPlaces(places, filters)[1..] == rest;
      }
    }
  }

  /** Selecting more kinds shows more: a non-empty filter list contained in
      another shows a subsequence of what the other shows. */
  lemma {:induction false} FilterMonotone(places: seq<Place>, f1: seq<LocationType>, f2: seq<LocationType>)
    requires |f1| > 0
    requires forall k :: k in f1 ==> k in f2
    ensures IsSubsequence(FilteredPlaces(places, f1), FilteredPlaces(places, f2))
    decreases |places|
  {
    if places != [] {
      FilterMonotone(places[1..], f1, f2);
      var r1 := FilteredPlaces(places[1..], f1);
      var r2 := FilteredPlaces(places[1..], f2);
      if Shown(f1, places[0]) {
        assert Shown(f2, places[0]);
        assert FilteredPlaces(places, f1)[1..] == r1;
        assert FilteredPlaces(places, f2)[1..] == r2;
      } else if Shown(f2, places[0]) {
        if FilteredPlaces(places, f1) != [] {
          assert FilteredPlaces(places, f2)[1..] == r2;
        }
      }
    }
  }

  /** The category buttons of the map's top bar. */
  datatype CategoryButton = Monuments | Restaurants | Hotels | Markets | ShowAll

  /** The filter list each button installs. */
  function ButtonFilters(button: CategoryButton): (r: seq<LocationType>)
    ensures |r| <= 1
    ensures r == [] <==> button == ShowAll
  {
    match button
    case Monuments => [Monument]
    case Restaurants => [Restaurant]
    case Hotels => [Hotel]
    case Markets => [ArtisanMarket]
    case ShowAll => []
  }

  /** `handleFilterChange`: only the filter list changes. */
  function HandleFilterChange(s: MapState, filters: seq<LocationType>): (t: MapState)
    ensures t.selectedFilters == filters
    ensures t.(selectedFilters := s.selectedFilters) == s
  {
    s.(selectedFilters := filters)
  }

  /** A category button shows exactly the places of its one kind. */
  lemma ButtonShowsOneKind(places: seq<Place>, button: CategoryButton, p: Place)
    requires button != ShowAll
    ensures p in FilteredPlaces(places, ButtonFilters(button)) <==> p in places && p.kind == ButtonFilters(button)[0]
  {
  }

  // ------------------------------------------------------- marker click

  /** `handleMarkerClick`: the clicked place becomes the selection and is
      appended to the route points while there are fewer than two. */
  function HandleMarkerClick(s: MapState, place: Place): (t: MapState)
    ensures t.selectedPlace == Some(place)
    ensures |s.routePoints| <= |t.routePoints| <= |s.routePoints| + 1
    ensures t.routePoints[..|s.routePoints|] == s.routePoints
    ensures |s.routePoints| <= 2 ==> |t.routePoints| <= 2
    ensures |t.routePoints| > |s.routePoints| <==> |s.routePoints| < 2
    ensures t.routePoints != s.routePoints ==> t.routePoints[|s.routePoints|] == place
    ensures t.userLocation == s.userLocation && t.customEndLocation == s.customEndLocation
    ensures t.selectedFilters == s.selectedFilters
  {
    var points := if |s.routePoints| < 2 then s.routePoints + [place] else s.routePoints;
    s.(selectedPlace := Some(place), routePoints := points)
  }

  // ---------------------------------------------------------------- swap

  /** `handleSwapRoutePoints`. */
  function HandleSwapRoutePoints(s: MapState): (t: MapState)
    ensures t.selectedFilters == s.selectedFilters && t.selectedPlace == s.selectedPlace
    ensures multiset(t.routePoints) == multiset(s.routePoints)
  {
    if s.userLocation.Some? && s.customEndLocation.Some? then
      s.(userLocation := s.customEndLocation, customEndLocation := s.userLocation)
    else if s.userLocation.Some? && s.selectedPlace.Some? then
      s.(userLocation := Some(s.selectedPlace.value.location))
    else if |s.routePoints| == 2 then
      assert s.routePoints == [s.routePoints[0], s.routePoints[1]];
      s.(routePoints := [s.routePoints[1], s.routePoints[0]])
    else s
  }

  /** With both a start and a custom end, swap exchanges them and changes
      nothing else (the route points stay), and swapping twice restores the
      state. */
  lemma SwapEndpointsInvolution(s: MapState)
    requires s.userLocation.Some? && s.customEndLocation.Some?
    ensures HandleSwapRoutePoints(s).userLocation == s.customEndLocation
    ensures HandleSwapRoutePoints(s).customEndLocation == s.userLocation
    ensures HandleSwapRoutePoints(s)
         == s.(userLocation := s.customEndLocation, customEndLocation := s.userLocation)
    ensures HandleSwapRoutePoints(HandleSwapRoutePoints(s)) == s
  {
  }

  /** With a start and a selected place but no custom end, swap moves the
      start onto the selected place without moving anything back: the old
      start is lost, and a second swap changes nothing more. */
  lemma SwapSelectedNotExchange(s: MapState)
    requires s.userLocation.Some? && s.customEndLocation.None? && s.selectedPlace.Some?
    ensures HandleSwapRoutePoints(s) == s.(userLocation := Some(s.selectedPlace.value.location))
    ensures HandleSwapRoutePoints(HandleSwapRoutePoints(s)) == HandleSwapRoutePoints(s)
    ensures s.userLocation != Some(s.selectedPlace.value.location) ==>
              HandleSwapRoutePoints(HandleSwapRoutePoints(s)) != s
  {
  }

  /** Otherwise two route points are reversed and nothing else changes
      (start and custom end stay), and a second swap reverses them back; in
      every remaining state swap does nothing. */
  lemma SwapRoutePointsOtherwise(s: MapState)
    requires !(s.userLocation.Some? && s.customEndLocation.Some?)
    requires !(s.userLocation.Some? && s.selectedPlace.Some?)
    ensures |s.routePoints| == 2 ==>
              HandleSwapRoutePoints(s).routePoints == [s.routePoints[1], s.routePoints[0]]
    ensures |s.routePoints| == 2 ==>
              HandleSwapRoutePoints(s) == s.(routePoints := [s.routePoints[1], s.routePoints[0]])
    ensures |s.routePoints| != 2 ==> HandleSwapRoutePoints(s) == s
    ensures HandleSwapRoutePoints(HandleSwapRoutePoints(s)) == s
  {
  }

  // ---------------------------------------------------------------- runs

  /** What the rendered map lets the user do. */
  datatype MapEvent =
    | PressCategory(button: CategoryButton)
    | ClickMarker(place: Place)
    | Swap
    | SetStart(start: Location)        // "my location" or the start search box
    | SetCustomEnd(end: Location)      // the destination search box
    | CloseInfoWindow

  /** Markers are drawn for the filtered places only. */
  predicate MapEnabled(places: seq<Place>, s: MapState, e: MapEvent) {
    e.ClickMarker? ==> e.place in FilteredPlaces(places, s.selectedFilters)
  }

  function MapStep(s: MapState, e: MapEvent): MapState {
    match e
    case PressCategory(b) => HandleFilterChange(s, ButtonFilters(b))
    case ClickMarker(p) => HandleMarkerClick(s, p)
    case Swap => HandleSwapRoutePoints(s)
    case SetStart(l) => s.(userLocation := Some(l))
    case SetCustomEnd(l) => s.(customEndLocation := Some(l))
    case CloseInfoWindow => s.(selectedPlace := None)
  }

  /** What holds in every reachable map state: at most two route points,
      at most one selected kind, and every route point and the selected
      place come from the places table. */
  predicate MapConsistent(places: seq<Place>, s: MapState) {
    && |s.routePoints| <= 2
    && |s.selectedFilters| <= 1
    && (forall i :: 0 <= i < |s.routePoints| ==> s.routePoints[i] in places)
    && (s.selectedPlace.Some? ==> s.selectedPlace.value in places)
  }

  lemma MapStepConsistent(places: seq<Place>, s: MapState, e: MapEvent)
    requires MapConsistent(places, s) && MapEnabled(places, s, e)
    ensures MapConsistent(places, MapStep(s, e))
  {
    match e
    case ClickMarker(p) =>
      var t := HandleMarkerClick(s, p);
      forall i | 0 <= i < |t.routePoints| ensures t.routePoints[i] in places {
        if i < |s.routePoints| {
          assert t.routePoints[i] == s.routePoints[i];
        }
      }
    case Swap =>
      var t := HandleSwapRoutePoints(s);
      forall i | 0 <= i < |t.routePoints| ensures t.routePoints[i] in places {
        assert t.routePoints[i] in multiset(s.routePoints);
      }
    case _ =>
  }

  function MapRun(s: MapState, events: seq<MapEvent>): MapState
    decreases |events|
  {
    if events == [] then s else MapRun(MapStep(s, events[0]), events[1..])
  }

  predicate MapAllEnabled(places: seq<Place>, s: MapState, events: seq<MapEvent>)
    decreases |events|
  {
    events == [] || (MapEnabled(places, s, events[0]) && MapAllEnabled(places, MapStep(s, events[0]), events[1..]))
  }

  /** From a consistent state, any run the map allows keeps the route list
      bounded by two and drawn from the places table. */
  lemma {:induction false} MapRunConsistent(places: seq<Place>, s: MapState, events: seq<MapEvent>)
    requires MapConsistent(places, s) && MapAllEnabled(places, s, events)
    ensures MapConsistent(places, MapRun(s, events))
    decreases |events|
  {
    if events != [] {
      MapStepConsistent(places, s, events[0]);
      MapRunConsistent(places, MapStep(s, events[0]), events[1..]);
    }
  }

  /** The map as mounted: every run the map allows from the initial state
      stays consistent. */
  lemma InitialMapRunConsistent(places: seq<Place>, events: seq<MapEvent>)
    requires MapAllEnabled(places, InitialMapState, events)
    ensures MapConsistent(places, MapRun(InitialMapState, events))
  {
    MapRunConsistent(places, InitialMapState, events);
  }
}

=== FILE: rag.dfy ===
/** Keyword retrieval over the assistant's small built-in knowledge base:
    the query is lower-cased and split on whitespace, every document with a
    keyword equal to one of the query words is selected, and the selection is
    rendered as a header followed by one line per document. */
module Rag {
  import opened Wrappers
  import opened Text
  import opened Seqs

  datatype DocKind = Site | Culture | Artisan

  datatype RagDocument = RagDocument(
    id: string,
    kind: DocKind,
    title: string,
    content: string,
    keywords: seq<string>)

  /** The six documents the retrieval searches, in their fixed order. */
  const RagDatabase: seq<RagDocument> := [
    RagDocument("1", Site, "Dassam Falls",
      "Dassam Falls is a spectacular waterfall near Ranchi, located in Taimara village. It is a natural cascade of the Subarnarekha River. The best time to visit is during the monsoon season (July-September) when the water level is high. It is a popular picnic spot but visitors should be cautious as the rocks can be slippery.",
      ["waterfall", "dassam", "ranchi", "picnic", "falls"]),
    RagDocument("2", Site, "Netarhat",
      "Known as the \"Queen of Chotanagpur\", Netarhat is a beautiful hill station famous for its stunning sunrises and sunsets. Key attractions include Magnolia Point and the Upper and Lower Ghaghri Falls. It offers a cool climate and is perfect for nature lovers.",
      ["netarhat", "hill station", "sunrise", "sunset", "nature"]),
    RagDocument("3", Culture, "Sohrai and Khovar Painting",
      "Sohrai and Khovar are traditional mural art forms practiced by tribal women in Jharkhand. Sohrai is celebrated during the harvest festival, and Khovar is associated with marriage ceremonies. These paintings use natural pigments and depict flora, fauna, and tribal life. They have received the Geographical Indication (GI) tag.",
      ["painting", "sohrai", "khovar", "art", "tribal", "culture"]),
    RagDocument("4", Artisan, "Dhokra Art",
      "Dhokra is a non-ferrous metal casting art using the lost-wax casting technique, which is one of the earliest known methods of metal casting. The artisans create intricate figurines of deities, animals, and ritual objects. It is a labor-intensive process, making each piece unique.",
      ["dhokra", "dokra", "metal", "craft", "artisan", "souvenir", "figurine"]),
    RagDocument("5", Artisan, "Wooden Crafts and Toys",
      "Jharkhand has a rich tradition of wood carving. Artisans craft beautiful toys, decorative items, and household objects from local woods like Gamhar and Sal. The wooden toys are often painted in vibrant colors and are eco-friendly souvenirs.",
      ["wood", "carving", "wooden", "toys", "handicraft", "souvenir"]),
    RagDocument("6", Site, "Baidyanath Jyotirlinga Temple, Deoghar",
      "One of the twelve Jyotirlingas, the Baidyanath temple in Deoghar is a major Hindu pilgrimage site. The temple complex has 22 temples and attracts millions of devotees, especially during the Shravani Mela.",
      ["temple", "deoghar", "baidyanath", "jyotirlinga", "pilgrimage"])
  ]

  /** The words of a query: lower-cased, then split on runs of whitespace. */
  function QueryWords(query: string): seq<string> {
    Split(Lower(query))
  }

  /** Some keyword of `doc` is exactly one of `words`. */
  predicate Mentions(doc: RagDocument, words: seq<string>) {
    exists k :: k in doc.keywords && k in words
  }

  /** The documents of `db` that mention one of `words`, in database order. */
  function Matched(db: seq<RagDocument>, words: seq<string>): (r: seq<RagDocument>)
    ensures |r| <= |db|
    ensures forall d :: d in r <==> d in db && Mentions(d, words)
    decreases |db|
  {
    if db == [] then []
    else
      var rest := Matched(db[1..], words);
      assert forall d :: d in db <==> d == db[0] || d in db[1..];
      if Mentions(db[0], words) then [db[0]] + rest else rest
  }

  const ContextHeader: string := "Relevant Information: "

  /** What one selected document contributes after the line marker. */
  function EntryText(doc: RagDocument): string {
    doc.title + ": " + doc.content
  }

  /** One line of the rendered context. */
  function EntryLine(doc: RagDocument): string {
    "\n- " + EntryText(doc)
  }

  function EntryLines(docs: seq<RagDocument>): string
    decreases |docs|
  {
    if docs == [] then [] else EntryLine(docs[0]) + EntryLines(docs[1..])
  }

  function EntryTexts(docs: seq<RagDocument>): (r: seq<string>)
    ensures |r| == |docs|
    decreases |docs|
  {
    if docs == [] then [] else [EntryText(docs[0])] + EntryTexts(docs[1..])
  }

  /** `retrieveContext`: `None` stands for the source's `null`. */
  function RetrieveContextIn(db: seq<RagDocument>, query: string): (r: Option<string>)
    ensures r.None? <==> forall d :: d in db ==> !Mentions(d, QueryWords(query))
    ensures r.Some? ==> |r.value| > |ContextHeader| && r.value[..|ContextHeader|] == ContextHeader
  {
    var docs := Matched(db, QueryWords(query));
    if |docs| == 0 then None
    else
      assert docs[0] in docs;
      Some(ContextHeader + EntryLines(docs))
  }

  /** The retrieval the assistant performs, over its own knowledge base. */
  function RetrieveContext(query: string): (r: Option<string>)
    ensures r.None? <==> forall d :: d in RagDatabase ==> !Mentions(d, QueryWords(query))
    ensures r.Some? ==> |r.value| > |ContextHeader| && r.value[..|ContextHeader|] == ContextHeader
  {
    RetrieveContextIn(RagDatabase, query)
  }

  // ------------------------------------------------ the code as written

  /** `retrieveContext` step by step: a scan of the database that adds a
      document on its first keyword hit and then breaks, followed by the
      concatenation of one line per added document. The set of the source
      holds distinct objects and every document is visited once, so the
      insertion-ordered set is a sequence with one append per hit. */
  method RetrieveContextLoop(db: seq<RagDocument>, query: string) returns (r: Option<string>)
    ensures r == RetrieveContextIn(db, query)
  {
    var words := QueryWords(query);
    var matched: seq<RagDocument> := [];
    for i := 0 to |db|
      invariant matched == Matched(db[..i], words)
    {
      var doc := db[i];
      var hit := KeywordScan(doc, words);
      MatchedSnoc(db[..i], doc, words);
      assert db[..i + 1] == db[..i] + [doc];
      if hit {
        matched := matched + [doc];
      }
    }
    assert db[..|db|] == db;
    if |matched| == 0 {
      return None;
    }
    var context := ContextHeader;
    for i := 0 to |matched|
      invariant context == ContextHeader + EntryLines(matched[..i])
    {
      EntryLinesSnoc(matched[..i], matched[i]);
      assert matched[..i + 1] == matched[..i] + [matched[i]];
      context := context + EntryLine(matched[i]);
    }
    assert matched[..|matched|] == matched;
    r := Some(context);
  }

  /** The inner loop of `retrieveContext`: the document's keywords in
      order, stopping at the first one among the query words. */
  method KeywordScan(doc: RagDocument, words: seq<string>) returns (hit: bool)
    ensures hit <==> Mentions(doc, words)
  {
    hit := false;
    for j := 0 to |doc.keywords|
      invariant !hit
      invariant forall m :: 0 <= m < j ==> doc.keywords[m] !in words
    {
      if doc.keywords[j] in words {
        hit := true;
        break;
      }
    }
  }

  lemma {:induction false} MatchedSnoc(db: seq<RagDocument>, doc: RagDocument, words: seq<string>)
    ensures Matched(db + [doc], words)
         == Matched(db, words) + (if Mentions(doc, words) then [doc] else [])
    decreases |db|
  {
    if db == [] {
      assert [doc][1..] == [];
    } else {
      assert (db + [doc])[1..] == db[1..] + [doc];
      MatchedSnoc(db[1..], doc, words);
    }
  }

  lemma {:induction false} EntryLinesSnoc(docs: seq<RagDocument>, doc: RagDocument)
    ensures EntryLines(docs + [doc]) == EntryLines(docs) + EntryLine(doc)
    decreases |docs|
  {
    if docs == [] {
      assert [doc][1..] == [];
    } else {
      assert (docs + [doc])[1..] == docs[1..] + [doc];
      EntryLinesSnoc(docs[1..], doc);
    }
  }

  // ------------------------------------------------ reading a context back

  /** The end of the line starting at `i`: the next newline, or the end. */
  function LineEnd(s: string, i: nat): (n: nat)
    requires i <= |s|
    ensures i <= n <= |s|
    ensures n < |s| ==> s[n] == '\n'
    ensures forall j :: i <= j < n ==> s[j] != '\n'
    decreases |s| - i
  {
    if i == |s| || s[i] == '\n' then i else LineEnd(s, i + 1)
  }

  /** Reads the entry lines back: each must start with the line marker,
      and its text runs to the next newline. */
  function ParseEntries(s: string): Option<seq<string>>
    decreases |s|
  {
    if s == [] then Some([])
    else if |s| < 3 || s[..3] != "\n- " then None
    else
      var n := LineEnd(s, 3);
      match ParseEntries(s[n..])
      case None => None
      case Some(rest) => Some([s[3..n]] + rest)
  }

  /** Titles and contents are single lines. */
  predicate SingleLine(doc: RagDocument) {
    '\n' !in doc.title && '\n' !in doc.content
  }

  /** Round trip: the rendered entry lines of single-line documents read back
      as one entry per document, in order. */
  lemma {:induction false} ParseEntryLines(docs: seq<RagDocument>)
    requires forall d :: d in docs ==> SingleLine(d)
    ensures ParseEntries(EntryLines(docs)) == Some(EntryTexts(docs))
    decreases |docs|
  {
    if docs != [] {
      var t := EntryText(docs[0]);
      var rest := EntryLines(docs[1..]);
      var s := EntryLines(docs);
      assert docs[0] in docs;
      assert '\n' !in t;
      assert s == "\n- " + t + rest;
      assert s[..3] == "\n- ";
      assert rest == [] || rest[0] == '\n';
      var n := LineEnd(s, 3);
      assert n == 3 + |t| by {
        forall j | 3 <= j < 3 + |t| ensures s[j] != '\n' {
          assert s[j] == t[j - 3];
        }
        if 3 + |t| < |s| {
          assert s[3 + |t|] == rest[0];
        }
        LineEndIsFirstNewline(s, 3, 3 + |t|);
      }
      assert s[3..n] == t;
      assert s[n..] == rest;
      ParseEntryLines(docs[1..]);
    }
  }

  lemma {:induction false} LineEndIsFirstNewline(s: string, i: nat, m: nat)
    requires i <= m <= |s|
    requires forall j :: i <= j < m ==> s[j] != '\n'
    requires m == |s| || s[m] == '\n'
    ensures LineEnd(s, i) == m
    decreases m - i
  {
    if i < m {
      LineEndIsFirstNewline(s, i + 1, m);
    }
  }

  /** A non-null context is the header followed by exactly one line per
      matched document, in database order; so it has as many entry lines as
      there are matched documents, and at most as many as the database. */
  lemma ContextEntries(db: seq<RagDocument>, query: string)
    requires forall d :: d in db ==> SingleLine(d)
    requires RetrieveContextIn(db, query).Some?
    ensures var ctx := RetrieveContextIn(db, query).value;
            var entries := ParseEntries(ctx[|ContextHeader|..]);
            && entries == Some(EntryTexts(Matched(db, QueryWords(query))))
            && 1 <= |entries.value| <= |db|
  {
    var docs := Matched(db, QueryWords(query));
    var ctx := RetrieveContextIn(db, query).value;
    assert ctx == ContextHeader + EntryLines(docs);
    assert ctx[|ContextHeader|..] == EntryLines(docs);
    ParseEntryLines(docs);
  }

  // ------------------------------------------------ properties of matching

  /** The selection keeps the database order and drops documents only. */
  lemma {:induction false} MatchedIsSubsequence(db: seq<RagDocument>, words: seq<string>)
    ensures IsSubsequence(Matched(db, words), db)
    decreases |db|
  {
    if db != [] {
      MatchedIsSubsequence(db[1..], words);
      var rest := Matched(db[1..], words);
      if Mentions(db[0], words) {
        assert Matched(db, words)[1..] == rest;
      } else if rest != [] {
        assert IsSubsequence(rest, db[1..]);
      }
    }
  }

  /** No document is listed twice when the database has no repeated entry. */
  lemma MatchedNoDuplicates(db: seq<RagDocument>, words: seq<string>)
    requires NoDuplicates(db)
    ensures NoDuplicates(Matched(db, words))
  {
    MatchedIsSubsequence(db, words);
    SubsequenceNoDuplicates(Matched(db, words), db);
  }

  /** Monotonicity: a query whose words include all the words of another
      selects at least the documents the other selects, in the same order. */
  lemma {:induction false} MatchedMonotone(db: seq<RagDocument>, w1: seq<string>, w2: seq<string>)
    requires forall w :: w in w1 ==> w in w2
    ensures IsSubsequence(Matched(db, w1), Matched(db, w2))
    decreases |db|
  {
    if db != [] {
      MatchedMonotone(db[1..], w1, w2);
      var r1 := Matched(db[1..], w1);
      var r2 := Matched(db[1..], w2);
      if Mentions(db[0], w1) {
        assert Mentions(db[0], w2);
        assert Matched(db, w1)[1..] == r1 && Matched(db, w2)[1..] == r2;
      } else if Mentions(db[0], w2) {
        var m1 := Matched(db, w1);
        if m1 != [] {
          assert Matched(db, w2)[1..] == r2;
        }
      }
    }
  }

  /** Corollary for whole queries. */
  lemma RetrieveMonotone(db: seq<RagDocument>, q1: string, q2: string)
    requires forall w :: w in QueryWords(q1) ==> w in QueryWords(q2)
    ensures RetrieveContextIn(db, q1).Some? ==> RetrieveContextIn(db, q2).Some?
    ensures IsSubsequence(Matched(db, QueryWords(q1)), Matched(db, QueryWords(q2)))
  {
    MatchedMonotone(db, QueryWords(q1), QueryWords(q2));
  }

  /** Matching ignores the case of the query's ASCII letters. */
  lemma CaseInsensitive(db: seq<RagDocument>, query: string)
    ensures RetrieveContextIn(db, Lower(query)) == RetrieveContextIn(db, query)
  {
    LowerIdempotent(query);
  }

  /** Every query word is lower case, so a keyword with an upper-case ASCII
      letter in it can never match. */
  lemma UpperCaseKeywordNeverMatches(query: string, keyword: string)
    requires exists i :: 0 <= i < |keyword| && 'A' <= keyword[i] <= 'Z'
    ensures keyword !in QueryWords(query)
  {
    var q := Lower(query);
    if keyword in Split(q) {
      var i :| 0 <= i < |keyword| && 'A' <= keyword[i] <= 'Z';
      SplitPiecesFromInput(q, keyword, i);
    }
  }

  /** A keyword with whitespace in it, such as "hill station", never matches,
      because query words never contain whitespace. */
  lemma WhitespaceKeywordNeverMatches(query: string, keyword: string)
    requires !NoWhitespace(keyword)
    ensures keyword !in QueryWords(query)
  {
    SplitNeverYieldsWhitespace(Lower(query), keyword);
  }

  // ------------------------------------------------ the built-in database

  /** Only the keyword list matters when the query has a single word. */
  lemma MentionsOneWord(doc: RagDocument, w: string)
    ensures Mentions(doc, [w]) <==> w in doc.keywords
  {
    if w in doc.keywords {
      assert w in [w];
    }
  }

  /** The built-in documents have pairwise different ids. */
  lemma RagDatabaseDistinct()
    ensures NoDuplicates(RagDatabase)
  {
    forall i, j | 0 <= i < j < |RagDatabase| ensures RagDatabase[i] != RagDatabase[j] {
      assert RagDatabase[i].id != RagDatabase[j].id;
    }
  }

  lemma QuestionMarkWord()
    ensures QueryWords("waterfall?") == ["waterfall?"]
  {
    LowerOfLower("waterfall?");
    SplitWord("waterfall?");
  }

  lemma CapitalisedWord()
    ensures QueryWords("Waterfall") == ["waterfall"]
  {
    assert Lower("Waterfall") == "waterfall";
    SplitWord("waterfall");
  }

  lemma KeywordFacts()
    ensures forall i :: 0 <= i < |RagDatabase| ==> "waterfall?" !in RagDatabase[i].keywords
    ensures forall i :: 0 <= i < |RagDatabase| ==> ("waterfall" in RagDatabase[i].keywords <==> i == 0)
  {
  }

  /** Punctuation is not stripped: "waterfall?" is not the keyword
      "waterfall", so that query retrieves nothing. */
  lemma PunctuationDefeatsMatch()
    ensures RetrieveContext("waterfall?").None?
  {
    QuestionMarkWord();
    KeywordFacts();
    forall d | d in RagDatabase ensures !Mentions(d, ["waterfall?"]) {
      MentionsOneWord(d, "waterfall?");
    }
  }

  lemma MatchedHead(db: seq<RagDocument>, words: seq<string>)
    requires Matched(db, words) != []
    ensures exists i :: 0 <= i < |db| && Mentions(db[i], words)
  {
    var d := Matched(db, words)[0];
    assert d in db;
  }

  /** When only the first document mentions a word, only it is selected. */
  lemma MatchedOnlyFirst(db: seq<RagDocument>, words: seq<string>)
    requires |db| >= 1 && Mentions(db[0], words)
    requires forall i :: 1 <= i < |db| ==> !Mentions(db[i], words)
    ensures Matched(db, words) == [db[0]]
  {
    var rest := Matched(db[1..], words);
    if rest != [] {
      MatchedHead(db[1..], words);
    }
  }

  /** Case is ignored: "Waterfall" retrieves exactly the Dassam Falls document. */
  lemma CapitalisedQueryMatches()
    ensures Matched(RagDatabase, QueryWords("Waterfall")) == [RagDatabase[0]]
  {
    CapitalisedWord();
    KeywordFacts();
    var db := RagDatabase;
    forall i | 0 <= i < |db| ensures Mentions(db[i], ["waterfall"]) <==> i == 0 {
      MentionsOneWord(db[i], "waterfall");
    }
    MatchedOnlyFirst(db, ["waterfall"]);
  }

  /** Netarhat's keyword "hill station" is dead: no query ever matches it. */
  lemma HillStationIsDead(query: string)
    ensures "hill station" in RagDatabase[1].keywords
    ensures "hill station" !in QueryWords(query)
  {
    assert "hill station"[4] == ' ';
    WhitespaceKeywordNeverMatches(query, "hill station");
  }
}

=== FILE: seqs.dfy ===
/** Order facts about sequences shared by the retrieval and the map filter. */
module Seqs {

  /** `a` is obtained from `b` by deleting elements, keeping the order. */
  predicate IsSubsequence<T(==)>(a: seq<T>, b: seq<T>)
    decreases |b|
  {
    if a == [] then true
    else if b == [] then false
    else (a[0] == b[0] && IsSubsequence(a[1..], b[1..])) || IsSubsequence(a, b[1..])
  }

  /** No element occurs at two positions. */
  predicate NoDuplicates<T(==)>(s: seq<T>) {
    forall i, j :: 0 <= i < j < |s| ==> s[i] != s[j]
  }

  /** A subsequence contains only elements of the whole. */
  lemma {:induction false} SubsequenceElements<T>(a: seq<T>, b: seq<T>)
    requires IsSubsequence(a, b)
    ensures forall x :: x in a ==> x in b
    decreases |b|
  {
    if a != [] {
      if a[0] == b[0] && IsSubsequence(a[1..], b[1..]) {
        SubsequenceElements(a[1..], b[1..]);
        assert forall x :: x in a ==> x == a[0] || x in a[1..];
      } else {
        SubsequenceElements(a, b[1..]);
      }
    }
  }

  /** Deleting elements from a duplicate-free sequence keeps it duplicate-free. */
  lemma {:induction false} SubsequenceNoDuplicates<T>(a: seq<T>, b: seq<T>)
    requires IsSubsequence(a, b) && NoDuplicates(b)
    ensures NoDuplicates(a)
    decreases |b|
  {
    if a != [] {
      assert NoDuplicates(b[1..]) by {
        forall i, j | 0 <= i < j < |b[1..]| ensures b[1..][i] != b[1..][j] {
          assert b[1..][i] == b[i + 1] && b[1..][j] == b[j + 1];
        }
      }
      if a[0] == b[0] && IsSubsequence(a[1..], b[1..]) {
        SubsequenceNoDuplicates(a[1..], b[1..]);
        SubsequenceElements(a[1..], b[1..]);
        forall i, j | 0 <= i < j < |a| ensures a[i] != a[j] {
          if i == 0 {
            assert a[j] == a[1..][j - 1];
            assert a[j] in b[1..];
            var k :| 0 <= k < |b[1..]| && b[1..][k] == a[j];
            assert b[k + 1] == a[j];
          } else {
            assert a[i] == a[1..][i - 1] && a[j] == a[1..][j - 1];
          }
        }
      } else {
        SubsequenceNoDuplicates(a, b[1..]);
      }
    }
  }

  /** `a` is a final segment of `b`. */
  predicate IsSuffix<T(==)>(a: seq<T>, b: seq<T>) {
    |a| <= |b| && b[|b| - |a|..] == a
  }

  /** The second part of a concatenation is a final segment of it. */
  lemma SuffixOfAppend<T>(a: seq<T>, b: seq<T>)
    ensures IsSuffix(b, a + b)
  {
    assert (a + b)[|a|..] == b;
  }

  /** A final segment of a final segment is a final segment. */
  lemma SuffixTransitive<T>(a: seq<T>, b: seq<T>, c: seq<T>)
    requires IsSuffix(a, b) && IsSuffix(b, c)
    ensures IsSuffix(a, c)
  {
    assert c[|c| - |a|..] == c[|c| - |b|..][|b| - |a|..];
  }

  /** The first part of a concatenation is a prefix of it. */
  lemma PrefixOfAppend<T>(a: seq<T>, b: seq<T>)
    ensures |a| <= |a + b| && (a + b)[..|a|] == a
  {
  }

  /** A prefix of a prefix is a prefix. */
  lemma PrefixTransitive<T>(a: seq<T>, b: seq<T>, c: seq<T>)
    requires a <= b && b <= c
    ensures a <= c
  {
    assert a == c[..|b|][..|a|];
  }
}

=== FILE: text.dfy ===
/** The few JavaScript string primitives the chat assistant relies on:
    the `\s` character class, `String.prototype.trim`, `toLowerCase`
    and `split(/\s+/)`. Strings are sequences of Unicode scalar values. */
module Text {

  /** JavaScript's `\s` class: the ECMAScript WhiteSpace and LineTerminator
      code points. `trim` strips exactly the same set. */
  predicate IsWhitespace(c: char) {
    c in WhitespaceChars || '\U{2000}' <= c <= '\U{200A}'
  }

  /** The `\s` code points outside the block U+2000..U+200A. */
  const WhitespaceChars: set<char> := {
    '\t', '\n', '\U{000B}', '\U{000C}', '\r', ' ', '\U{00A0}', '\U{1680}',
    '\U{2028}', '\U{2029}', '\U{202F}', '\U{205F}', '\U{3000}', '\U{FEFF}'
  }

  /** No whitespace character anywhere in `s`. */
  predicate NoWhitespace(s: string) {
    forall i :: 0 <= i < |s| ==> !IsWhitespace(s[i])
  }

  /** Every character of `s` is whitespace (vacuously true of ""). */
  predicate AllWhitespace(s: string) {
    forall i :: 0 <= i < |s| ==> IsWhitespace(s[i])
  }

  // ---------------------------------------------------------------- trim

  function TrimStart(s: string): (r: string)
    ensures |r| <= |s| && r == s[|s| - |r|..]
    ensures r == [] || !IsWhitespace(r[0])
    ensures AllWhitespace(s[..|s| - |r|])
  {
    if s == [] || !IsWhitespace(s[0]) then s
    else
      var r := TrimStart(s[1..]);
      assert s[1..][..|s[1..]| - |r|] == s[1..|s| - |r|];
      r
  }

  function TrimEnd(s: string): (r: string)
    ensures |r| <= |s| && r == s[..|r|]
    ensures r == [] || !IsWhitespace(r[|r| - 1])
    ensures AllWhitespace(s[|r|..])
  {
    if s == [] || !IsWhitespace(s[|s| - 1]) then s
    else
      var r := TrimEnd(s[..|s| - 1]);
      assert s[..|s| - 1][|r|..] == s[|r|..|s| - 1];
      r
  }

  /** `r` sits at offset `i` of `s`, with only whitespace on either side. */
  predicate SliceBetweenWhitespace(s: string, r: string, i: int) {
    && 0 <= i <= |s| - |r|
    && r == s[i..i + |r|]
    && AllWhitespace(s[..i])
    && AllWhitespace(s[i + |r|..])
  }

  /** `String.prototype.trim`: leading and trailing whitespace removed.
      The result is a slice of `s` that neither starts nor ends with
      whitespace, and everything cut away on either side is whitespace. */
  function Trim(s: string): (r: string)
    ensures r == [] || (!IsWhitespace(r[0]) && !IsWhitespace(r[|r| - 1]))
    ensures exists i :: SliceBetweenWhitespace(s, r, i)
  {
    var t := TrimStart(s);
    var r := TrimEnd(t);
    TrimSlice(s, t, r);
    r
  }

  /** Trimming the end after the start leaves a slice of the original with
      only whitespace cut away. */
  lemma TrimSlice(s: string, t: string, r: string)
    requires |t| <= |s| && t == s[|s| - |t|..] && AllWhitespace(s[..|s| - |t|])
    requires |r| <= |t| && r == t[..|r|] && AllWhitespace(t[|r|..])
    requires t == [] || !IsWhitespace(t[0])
    ensures SliceBetweenWhitespace(s, r, |s| - |t|)
    ensures r == [] || !IsWhitespace(r[0])
  {
    var i := |s| - |t|;
    assert r == s[i..i + |r|];
    assert s[i + |r|..] == t[|r|..];
    if r != [] {
      assert r[0] == t[0];
    }
  }

  /** `!text.trim()` in the source: the trimmed text is the empty string,
      which happens exactly when the text is nothing but whitespace. */
  lemma {:induction false} TrimEmptyIffAllWhitespace(s: string)
    ensures Trim(s) == [] <==> AllWhitespace(s)
  {
    var t := TrimStart(s);
    if Trim(s) == [] {
      assert AllWhitespace(t[0..]);
      assert t == s[|s| - |t|..];
      forall i | 0 <= i < |s| ensures IsWhitespace(s[i]) {
        if i < |s| - |t| {
          assert s[..|s| - |t|][i] == s[i];
        } else {
          assert t[i - (|s| - |t|)] == s[i];
        }
      }
    } else {
      var r := Trim(s);
      assert !IsWhitespace(r[0]) by {
        if t != [] {
          assert r == t[..|r|];
          assert r[0] == t[0];
        }
      }
      assert t[0] == r[0];
      assert t[0] == s[|s| - |t|];
    }
  }

  // ---------------------------------------------------------------- case

  /** `toLowerCase` on one character; only the ASCII letters are mapped. */
  function LowerChar(c: char): (d: char)
    ensures 'A' <= c <= 'Z' ==> d as int == c as int + 32
    ensures !('A' <= c <= 'Z') ==> d == c
  {
    if 'A' <= c <= 'Z' then (c as int + 32) as char else c
  }

  function Lower(s: string): (r: string)
    ensures |r| == |s|
    ensures forall i :: 0 <= i < |s| ==> r[i] == LowerChar(s[i])
  {
    seq(|s|, i requires 0 <= i < |s| => LowerChar(s[i]))
  }

  /** Lower-casing twice is lower-casing once. */
  lemma LowerIdempotent(s: string)
    ensures Lower(Lower(s)) == Lower(s)
  {
    assert forall i :: 0 <= i < |s| ==> LowerChar(LowerChar(s[i])) == LowerChar(s[i]);
  }

  /** A string without upper-case ASCII letters is its own lower case. */
  lemma LowerOfLower(s: string)
    requires forall i :: 0 <= i < |s| ==> !('A' <= s[i] <= 'Z')
    ensures Lower(s) == s
  {
  }

  // --------------------------------------------------------------- split

  /** `s.split(/\s+/)`: the pieces between maximal runs of whitespace.
      As in JavaScript, a leading or trailing run yields an empty first or
      last piece, and the empty string splits into one empty piece. */
  function Split(s: string): (r: seq<string>)
    ensures |r| >= 1
    ensures forall k :: 0 <= k < |r| ==> NoWhitespace(r[k])
    ensures s == [] || IsWhitespace(s[0]) ==> r[0] == []
    decreases |s|
  {
    if s == [] then [[]]
    else if IsWhitespace(s[0]) then [[]] + Split(TrimStart(s[1..]))
    else
      var rest := Split(s[1..]);
      [[s[0]] + rest[0]] + rest[1..]
  }

  /** A piece produced by `Split` never contains whitespace, so a word with
      a space in it can never be one of the pieces. */
  lemma SplitNeverYieldsWhitespace(s: string, w: string)
    requires !NoWhitespace(w)
    ensures w !in Split(s)
  {
  }

  /** A string without whitespace splits into itself. */
  lemma {:induction false} SplitWord(s: string)
    requires NoWhitespace(s)
    ensures Split(s) == [s]
    decreases |s|
  {
    if s != [] {
      SplitWord(s[1..]);
      assert [s[0]] + s[1..] == s;
    }
  }

  /** A decomposition of a string into whitespace-free pieces separated by
      non-empty whitespace runs: only the first and the last piece may be
      empty (they are when the string starts or ends with whitespace). */
  predicate Decomposition(pieces: seq<string>, runs: seq<string>) {
    && |pieces| >= 1
    && |runs| == |pieces| - 1
    && (forall k :: 0 <= k < |pieces| ==> NoWhitespace(pieces[k]))
    && (forall k :: 0 < k < |pieces| - 1 ==> pieces[k] != [])
    && (forall k :: 0 <= k < |runs| ==> runs[k] != [] && AllWhitespace(runs[k]))
  }

  /** The pieces put back together, each run between two pieces. */
  function Interleave(pieces: seq<string>, runs: seq<string>): string
    requires |pieces| >= 1 && |runs| == |pieces| - 1
    decreases |pieces|
  {
    if |pieces| == 1 then pieces[0]
    else pieces[0] + runs[0] + Interleave(pieces[1..], runs[1..])
  }

  /** Splitting a word in front of a whitespace boundary keeps the word whole. */
  lemma {:induction false} SplitAfterWord(w: string, s: string)
    requires w != [] && NoWhitespace(w)
    requires s == [] || IsWhitespace(s[0])
    ensures Split(w + s) == [w] + Split(s)[1..]
    decreases |w|
  {
    var ws := w + s;
    assert ws[0] == w[0] && ws[1..] == w[1..] + s;
    if |w| == 1 {
      assert w[1..] + s == s;
      assert [w[0]] + Split(s)[0] == w;
    } else {
      SplitAfterWord(w[1..], s);
      assert [w[0]] + w[1..] == w;
    }
  }

  /** Trimming a whitespace run in front of a word boundary leaves the rest. */
  lemma {:induction false} TrimStartRun(run: string, rest: string)
    requires AllWhitespace(run)
    requires rest == [] || !IsWhitespace(rest[0])
    ensures TrimStart(run + rest) == rest
    decreases |run|
  {
    if run != [] {
      assert (run + rest)[1..] == run[1..] + rest;
      TrimStartRun(run[1..], rest);
    } else {
      assert run + rest == rest;
    }
  }

  /** A reassembled decomposition starts with its first piece's first
      character, and is empty only when it is one empty piece. */
  lemma {:induction false} InterleaveStart(pieces: seq<string>, runs: seq<string>)
    requires Decomposition(pieces, runs) && pieces[0] != []
    ensures Interleave(pieces, runs) != [] && Interleave(pieces, runs)[0] == pieces[0][0]
  {
  }

  /** A whitespace run in front of a word boundary becomes one empty piece. */
  lemma SplitAfterRun(run: string, rest: string)
    requires run != [] && AllWhitespace(run)
    requires rest == [] || !IsWhitespace(rest[0])
    ensures Split(run + rest) == [[]] + Split(rest)
  {
    var s := run + rest;
    assert s[0] == run[0];
    assert s[1..] == run[1..] + rest;
    TrimStartRun(run[1..], rest);
  }

  /** Dropping the first piece and run of a decomposition leaves one. */
  lemma DecompositionTail(pieces: seq<string>, runs: seq<string>)
    requires Decomposition(pieces, runs) && |pieces| > 1
    ensures Decomposition(pieces[1..], runs[1..])
  {
    var tailPieces := pieces[1..];
    var tailRuns := runs[1..];
    forall k | 0 < k < |tailPieces| - 1 ensures tailPieces[k] != [] {
      assert tailPieces[k] == pieces[k + 1];
    }
    forall k | 0 <= k < |tailPieces| ensures NoWhitespace(tailPieces[k]) {
      assert tailPieces[k] == pieces[k + 1];
    }
    forall k | 0 <= k < |tailRuns| ensures tailRuns[k] != [] && AllWhitespace(tailRuns[k]) {
      assert tailRuns[k] == runs[k + 1];
    }
  }

  /** A whitespace-free piece, a whitespace run and a string starting at a
      word boundary split into the piece followed by the pieces of the rest. */
  lemma SplitPrefixed(first: string, run: string, rest: string)
    requires NoWhitespace(first)
    requires run != [] && AllWhitespace(run)
    requires rest == [] || !IsWhitespace(rest[0])
    ensures Split(first + run + rest) == [first] + Split(rest)
  {
    var s := run + rest;
    SplitAfterRun(run, rest);
    assert first + run + rest == first + s;
    if first == [] {
      assert first + s == s;
    } else {
      SplitAfterWord(first, s);
      assert ([[]] + Split(rest))[1..] == Split(rest);
    }
  }

  /** Round trip: splitting any decomposition — pieces separated by
      whitespace runs of any length and kind, with an optional leading run
      (empty first piece) and an optional trailing run (empty last piece) —
      gives back exactly its pieces. */
  lemma {:induction false} SplitJoin(pieces: seq<string>, runs: seq<string>)
    requires Decomposition(pieces, runs)
    ensures Split(Interleave(pieces, runs)) == pieces
    decreases |pieces|
  {
    if |pieces| == 1 {
      SplitWord(pieces[0]);
    } else {
      DecompositionTail(pieces, runs);
      var rest := Interleave(pieces[1..], runs[1..]);
      SplitJoin(pieces[1..], runs[1..]);
      if pieces[1] != [] {
        InterleaveStart(pieces[1..], runs[1..]);
      } else {
        assert |pieces| == 2;
      }
      SplitPrefixed(pieces[0], runs[0], rest);
      assert [pieces[0]] + pieces[1..] == pieces;
    }
  }

  /** The whitespace runs of `s`, in order: the separators `Split` drops. */
  function Runs(s: string): seq<string>
    decreases |s|
  {
    if s == [] then []
    else if IsWhitespace(s[0]) then
      var rest := TrimStart(s[1..]);
      [s[..|s| - |rest|]] + Runs(rest)
    else Runs(s[1..])
  }

  /** The first piece of a string that starts with a non-whitespace
      character is not empty. */
  lemma SplitFirstPiece(s: string)
    requires s != [] && !IsWhitespace(s[0])
    ensures Split(s)[0] != []
  {
  }

  /** A whitespace run in front of a decomposition whose first piece is not
      empty (or which is a single piece) extends it by an empty first piece. */
  lemma ConsRun(run: string, pieces: seq<string>, runs: seq<string>)
    requires run != [] && AllWhitespace(run)
    requires Decomposition(pieces, runs) && (pieces[0] != [] || |pieces| == 1)
    ensures Decomposition([[]] + pieces, [run] + runs)
    ensures Interleave([[]] + pieces, [run] + runs) == run + Interleave(pieces, runs)
  {
    var p := [[]] + pieces;
    var r := [run] + runs;
    assert p[1..] == pieces && r[1..] == runs;
    forall k | 0 < k < |p| - 1 ensures p[k] != [] {
      assert p[k] == pieces[k - 1];
    }
    forall k | 0 <= k < |p| ensures NoWhitespace(p[k]) {
      if k > 0 {
        assert p[k] == pieces[k - 1];
      }
    }
    forall k | 0 <= k < |r| ensures r[k] != [] && AllWhitespace(r[k]) {
      if k > 0 {
        assert r[k] == runs[k - 1];
      }
    }
    assert [] + run == run;
  }

  /** A non-whitespace character in front of a decomposition joins its first
      piece. */
  lemma ConsChar(c: char, pieces: seq<string>, runs: seq<string>)
    requires !IsWhitespace(c) && Decomposition(pieces, runs)
    ensures Decomposition([[c] + pieces[0]] + pieces[1..], runs)
    ensures Interleave([[c] + pieces[0]] + pieces[1..], runs) == [c] + Interleave(pieces, runs)
  {
    var p := [[c] + pieces[0]] + pieces[1..];
    forall k | 0 < k < |p| - 1 ensures p[k] != [] {
      assert p[k] == pieces[k];
    }
    forall k | 0 <= k < |p| ensures NoWhitespace(p[k]) {
      if k > 0 {
        assert p[k] == pieces[k];
      } else {
        assert NoWhitespace(pieces[0]);
      }
    }
    if |pieces| > 1 {
      assert p[1..] == pieces[1..];
    }
  }

  /** A string starting with whitespace is its leading run followed by the
      rest, which `TrimStart` finds. */
  lemma LeadingRun(s: string)
    requires s != [] && IsWhitespace(s[0])
    ensures var rest := TrimStart(s[1..]);
            var run := s[..|s| - |rest|];
            run != [] && AllWhitespace(run) && run + rest == s
  {
    var rest := TrimStart(s[1..]);
    assert rest == TrimStart(s);
    assert s[..|s| - |rest|] + rest == s;
  }

  /** The other half of the round trip: the pieces `Split` returns and the
      runs between them always form a decomposition that reassembles into
      the input. With `SplitJoin`, `Split(s)` is the one piece sequence of
      any decomposition of `s`. */
  lemma {:induction false} SplitReassembles(s: string)
    ensures Decomposition(Split(s), Runs(s))
    ensures Interleave(Split(s), Runs(s)) == s
    decreases |s|
  {
    if s == [] {
    } else if IsWhitespace(s[0]) {
      var rest := TrimStart(s[1..]);
      var run := s[..|s| - |rest|];
      SplitReassembles(rest);
      LeadingRun(s);
      if rest != [] {
        SplitFirstPiece(rest);
      }
      ConsRun(run, Split(rest), Runs(rest));
      assert run + rest == s;
    } else {
      SplitReassembles(s[1..]);
      ConsChar(s[0], Split(s[1..]), Runs(s[1..]));
      assert [s[0]] + s[1..] == s;
    }
  }

  /** JavaScript's `"  waterfall".split(/\s+/)` is `["", "waterfall"]`. */
  lemma LeadingRunSplit()
    ensures Split("  waterfall") == ["", "waterfall"]
  {
    var pieces := ["", "waterfall"];
    var runs := ["  "];
    assert Interleave(pieces, runs) == "  waterfall";
    SplitJoin(pieces, runs);
  }

  /** Every character of every piece comes from the split string. */
  lemma {:induction false} SplitPiecesFromInput(s: string, w: string, i: nat)
    requires w in Split(s) && i < |w|
    ensures w[i] in s
    decreases |s|
  {
    if s != [] {
      if IsWhitespace(s[0]) {
        var d := TrimStart(s[1..]);
        assert w in Split(d);
        SplitPiecesFromInput(d, w, i);
        assert w[i] in s[1..];
      } else {
        var rest := Split(s[1..]);
        if w == [s[0]] + rest[0] {
          if i > 0 {
            assert w[i] == rest[0][i - 1];
            SplitPiecesFromInput(s[1..], rest[0], i - 1);
            assert w[i] in s[1..];
          }
        } else {
          assert w in rest;
          SplitPiecesFromInput(s[1..], w, i);
          assert w[i] in s[1..];
        }
      }
    }
  }
}

=== FILE: wrappers.dfy ===
/** The optional value used wherever the source returns `T | null`. */
module Wrappers {

  datatype Option<+T> = None | Some(value: T) {

    /** The wrapped value, or `default` when there is none. */
    function GetOr(default: T): T {
      match this
      case Some(v) => v
      case None => default
    }
  }
}
